=== FILE: README.md ===
# Bird counting and weight-proxy analysis, modelled in Dafny

This project models the core of `BirdAnalyzer` in `logic.py`: the weight
proxy of a detection (`estimate_weight_proxy`) and the per-frame aggregation
loop of `process_video`. The loop reads frames until the stream ends. For
each frame it takes the tracker's detections (integer box, track id,
confidence). It computes each detection's weight proxy, the box's signed
pixel area. It records the first sighting of every new track id in a
registry that is insert-if-absent. It appends one record per frame with the
detection count and the mean proxy. At the end it assembles the result:
total frames, time series, number of distinct tracks, the registry and a
fixed note on units.

Files:

- `detections.dfy` (module `Detections`): boxes, detections, the tracker's
  per-frame answer (`Untracked` when it reports no boxes or no ids), and
  `WeightProxy`.
- `aggregation.dfy` (module `Aggregation`): the pure specification of the
  loop. It has the per-frame summary (`Summarize`), the registry
  (`Observe`, `RegisterAll`), and the fold over frames (`Step`, `Fold`). The
  lemmas state the loop's properties.
- `analyzer.dfy` (module `Analyzer`): the imperative side. `Session` holds
  the loop's state (`frameIdx`, `timeSeriesCounts`, `trackSamples`) and
  `ProcessFrame` updates it. `ScanDetections` is the loop over one frame's
  detections. `ProcessVideo` is the `while True` driver, proved to produce
  `Analyze(frames)`, the assembled fold.

Modelling choices:

- The detector and the video reader are replaced by the input
  `Video(isOpen, fps, frames)`. `fps` is the frame rate the container
  reports. `frames` is the tracker's answer for each frame in stream order.
  When the video cannot be opened, the driver returns
  `Failed(CouldNotOpenVideo)`. This is the `ValueError` of logic.py:27-28.
- A reported frame rate of 0 makes the timestamp at logic.py:106 divide by
  zero on the first frame read, so the driver returns
  `Failed(ZeroFrameRate)` for an open video with at least one frame. A
  video without frames never computes a timestamp and succeeds.
- Boxes are integers. The float-to-int truncation at logic.py:75 happens
  before the model's input.
- The average proxy is an exact `real`: the sum divided by the count, and
  0.0 for a frame without detections.
- `FrameStat` carries the frame index where the source stores
  `time_sec = round(frame_idx / orig_fps, 2)`.
- The weight proxy is not clamped. A box inverted along exactly one axis
  and of non-zero extent along the other gets a negative proxy
  (`WeightProxyExamples`). Nothing at logic.py:19-23 clamps a degenerate
  box to 0.
- `fps_sample` is a parameter of `ProcessVideo`, and nothing in the model
  reads it. The source computes `skip_step` from it (logic.py:48) but never
  uses it, so every frame is processed.
- Inside the frame loop the registry is a local map, as `track_samples` is
  in `process_video`. `Session` holds it between frames.

## Model

| member | source | states |
|---|---|---|
| `Detections.WeightProxy` | logic.py:13-23 | The proxy is non-negative for a box not inverted on either axis. It is zero exactly when width or height is zero. It is negative exactly when one dimension is negative and the other positive, because nothing clamps it. |
| `Detections.WeightProxyExamples` | logic.py:19-23 | (10,10,50,60) gives 2000, (20,10,10,10) gives 0, and (20,10,10,20) gives -100 (not clamped). |
| `Aggregation.MeanBounds` | logic.py:111 | The mean of a non-empty proxy list lies between any lower and upper bound of its elements. |
| `Aggregation.Summarize` | logic.py:64-112 | A frame's record carries its index. Its count is the number of tracked detections, and 0 when the tracker reports no boxes or ids. A count of 0 gives an average of exactly 0.0, with no division. |
| `Aggregation.FrameAverage` | logic.py:108-112 | For a frame with detections, the average times the count equals the sum of the detections' proxies: it is their arithmetic mean. |
| `Aggregation.FrameAverageBounds` | logic.py:74-111 | For a frame with detections, `avg_weight_proxy` lies between any lower and upper bound of the frame's weight proxies. |
| `Aggregation.AverageNonNegative` | logic.py:74-111 | If every box in a frame is well formed, the frame's average proxy is not negative. |
| `Aggregation.Observe` | logic.py:90-95 | Insert-if-absent: the key set gains the detection's id. Every existing entry keeps its record. A new id gets the frame index, the confidence and the box of this detection. |
| `Aggregation.RegisterAll` | logic.py:74-95 | After a frame's detections, the key set is the old keys plus the frame's ids. Old entries are unchanged, and every new entry records the current frame. |
| `Aggregation.FirstIndex` | logic.py:74-95 | The index returned holds the given id, and no earlier detection holds it. |
| `Aggregation.RegisterAllFirstWins` | logic.py:74-95 | Within one frame, a new id's record comes from its first detection in the frame's order. |
| `Aggregation.IdsSeenIff` | logic.py:90-91 | An id has been seen exactly when some processed frame contains it. |
| `Aggregation.Fold` | logic.py:50-114 | After consuming n frames, the frame index is n and the time series has n records. |
| `Aggregation.FoldRegistry` | logic.py:90-95 | The registry's keys are exactly the ids seen in the processed frames. Every entry's `first_seen_frame` is below the number of frames processed. |
| `Aggregation.SeriesRecord` | logic.py:104-114 | Record k of the time series is the summary of frame k, so records are in frame order. |
| `Aggregation.FoldExtends` | logic.py:90-114 | Append-only: processing more frames keeps the earlier time series as a prefix. It never changes or removes a registry entry. |
| `Aggregation.FirstSighting` | logic.py:90-95 | An id's entry names the first frame containing the id. No earlier frame contains it. Its confidence and box come from the id's first detection in that frame. |
| `Analyzer.Analyze` | logic.py:119-125 | The result reports as many frames as the time series has records. Its registry keys are the ids seen. `unique_birds_tracked` is their number. Every entry was first seen before the end. The units note is the fixed text. |
| `Analyzer.ScanDetections` | logic.py:74-95 | The loop over one frame's detections collects exactly the detections' proxies in order. It leaves the registry as the insert-if-absent fold of those detections. |
| `Analyzer.Session.constructor` | logic.py:41-45 | A new session starts at frame 0 with an empty time series and an empty registry. |
| `Analyzer.Session.ProcessFrame` | logic.py:62-114 | One frame advances the index by one and appends exactly that frame's summary. It updates the registry by insert-if-absent. It keeps the invariant: one record per frame, and every entry first seen before the current index. |
| `Analyzer.ProcessVideo` | logic.py:25-125 | An unopened video yields the open error. An open video with a reported frame rate of 0 and at least one frame yields the division error of the first timestamp. Otherwise the loop reads every frame, whatever the sampling rate, and returns exactly `Analyze(frames)`. |
| `Analyzer.ThreeFrameScenario` | logic.py:50-125 | Three frames (empty; id 1 with a 10x10 box; id 1 with a 12x10 box) give averages 0.0, 100.0 and 120.0. One id is registered, with its first sighting at frame 1, and three frames are processed. |

## Left out

- YOLO model loading and `model.track` (logic.py:11, 62) are an external library with hidden tracker state. The tracker's per-frame output is an input of the model, so the confidence threshold and class filter passed to it do not appear.
- Video capture metadata, reading, writing and release (logic.py:26-38, 51, 102, 116-117) are codec and file I/O. Only the open failure, the reported frame rate (whether it is 0) and the end of the stream are modelled.
- Drawing boxes and labels (logic.py:83-87, 98-99) changes pixels only and feeds nothing back into the aggregates.
- `time_sec` (logic.py:106) is floating-point division and rounding. The frame index is kept in its place.
- Aggregation.Summarize: the average is an exact real. The float rounding of `np.mean` and of `float(area)` (logic.py:23, 111) is not modelled.
- Analyzer.ProcessVideo: an exception raised by the tracker or the writer in the middle of the loop is not modelled; such faults come from code outside this model.
- Analyzer.Analyze: `tracks_sample` is a map without order. The source's dict lists ids in first-sighting order (logic.py:90-95, 123); the model proves which ids and which records it holds, not the order in which they are listed.
- Analyzer.ProcessVideo: the result is likewise a map without order, so the listing order of `tracks_sample` in the returned record is not captured.
- The `skip_step` computation (logic.py:48) has no effect on any output for a finite frame rate, so it is not modelled. Its parameter is accepted and ignored.
- Analyzer.ProcessVideo: the reported frame rate is a real; a NaN or infinite rate, for which `int(orig_fps / fps_sample)` at logic.py:48 raises before the loop when `fps_sample` is non-zero, is not represented.
- main.py (HTTP routing, upload storage, downloads, the catch-all error response) is transport glue and is not part of this model.

=== FILE: aggregation.dfy ===
/**
 * The pure specification of the frame loop: per-frame summaries, the
 * first-sighting registry and the fold of both over a stream of frames.
 */
module Aggregation {
  import opened Detections

  /** The summary appended for one frame. The frame index stands where the
      rounded timestamp would be. */
  datatype FrameStat = FrameStat(frame: nat, count: nat, avgWeightProxy: real)

  /** The first sighting of one track id. */
  datatype TrackRecord = TrackRecord(firstSeenFrame: nat, confidence: real, sampleBox: Box)

  /** The state the frame loop accumulates: the index of the next frame, the
      time series and the registry keyed by track id. */
  datatype Aggregate = Aggregate(frameIdx: nat, series: seq<FrameStat>, registry: map<int, TrackRecord>)

  // ---------------------------------------------------------------- averages

  /** The weight proxies of a frame's detections, in detection order. */
  function Proxies(dets: seq<Detection>): seq<int>
  {
    seq(|dets|, i requires 0 <= i < |dets| => WeightProxy(dets[i].box))
  }

  lemma ProxiesSnoc(dets: seq<Detection>, d: Detection)
    ensures Proxies(dets + [d]) == Proxies(dets) + [WeightProxy(d.box)]
  {
  }

  function Sum(s: seq<int>): int
  {
    if s == [] then 0 else s[0] + Sum(s[1..])
  }

  /** The arithmetic mean, 0.0 for the empty list. */
  function Mean(s: seq<int>): real
  {
    if |s| == 0 then 0.0 else Sum(s) as real / |s| as real
  }

  lemma {:induction false} SumBounds(s: seq<int>, lo: int, hi: int)
    requires forall i :: 0 <= i < |s| ==> lo <= s[i] <= hi
    ensures lo * |s| <= Sum(s) <= hi * |s|
  {
    if s != [] {
      SumBounds(s[1..], lo, hi);
      assert lo * |s| == lo + lo * |s[1..]|;
      assert hi * |s| == hi + hi * |s[1..]|;
    }
  }

  lemma CastProduct(a: int, b: int)
    ensures (a * b) as real == a as real * b as real
  {
  }

  lemma DivBounds(t: real, n: real, lo: real, hi: real)
    requires n > 0.0 && lo * n <= t <= hi * n
    ensures lo <= t / n <= hi
  {
    assert t / n - lo == (t - lo * n) / n;
    assert hi - t / n == (hi * n - t) / n;
  }

  /** The mean of a non-empty list lies between any lower and upper bound of
      its elements. */
  lemma MeanBounds(s: seq<int>, lo: int, hi: int)
    requires |s| > 0
    requires forall i :: 0 <= i < |s| ==> lo <= s[i] <= hi
    ensures lo as real <= Mean(s) <= hi as real
  {
    var n := |s|;
    SumBounds(s, lo, hi);
    CastProduct(lo, n);
    CastProduct(hi, n);
    DivBounds(Sum(s) as real, n as real, lo as real, hi as real);
  }

  // ---------------------------------------------------------- frame summary

  /** The summary of frame `f`: no boxes or ids gives count 0 and average
      0.0, otherwise the count of detections and the mean of their proxies. */
  function Summarize(f: nat, out: TrackerOutput): (r: FrameStat)
    ensures r.frame == f
    ensures r.count == |Dets(out)|
    ensures out.Untracked? ==> r.count == 0
    ensures r.count == 0 ==> r.avgWeightProxy == 0.0
  {
    match out
    case Untracked => FrameStat(f, 0, 0.0)
    case Tracked(ds) => FrameStat(f, |ds|, Mean(Proxies(ds)))
  }

  /** A frame's average proxy is the mean of its detections' proxies: times
      the count it gives their sum. */
  lemma FrameAverage(f: nat, out: TrackerOutput)
    requires |Dets(out)| > 0
    ensures Summarize(f, out).avgWeightProxy * |Dets(out)| as real == Sum(Proxies(Dets(out))) as real
  {
  }

  /** A frame's average proxy lies between any bounds on its detections'
      proxies. */
  lemma FrameAverageBounds(f: nat, out: TrackerOutput, lo: int, hi: int)
    requires |Dets(out)| > 0
    requires forall i :: 0 <= i < |Dets(out)| ==> lo <= WeightProxy(Dets(out)[i].box) <= hi
    ensures lo as real <= Summarize(f, out).avgWeightProxy <= hi as real
  {
    MeanBounds(Proxies(Dets(out)), lo, hi);
  }

  /** A list of non-negative values has a non-negative sum. */
  lemma {:induction false} SumNonNegative(s: seq<int>)
    requires forall i :: 0 <= i < |s| ==> s[i] >= 0
    ensures Sum(s) >= 0
  {
    if s != [] {
      SumNonNegative(s[1..]);
    }
  }

  /** When every box of a frame is well formed, its average proxy is not
      negative. */
  lemma AverageNonNegative(f: nat, out: TrackerOutput)
    requires forall d :: d in Dets(out) ==> d.box.WellFormed()
    ensures Summarize(f, out).avgWeightProxy >= 0.0
  {
    var ws := Proxies(Dets(out));
    forall j | 0 <= j < |ws| ensures ws[j] >= 0 {
      assert Dets(out)[j] in Dets(out);
    }
    SumNonNegative(ws);
  }

  // --------------------------------------------------------------- registry

  /** The record a detection produces when it is the first sighting. */
  function Sighting(f: nat, d: Detection): TrackRecord
  {
    TrackRecord(f, d.conf, d.box)
  }

  /** Insert-if-absent: a track id already present keeps its record. */
  function Observe(reg: map<int, TrackRecord>, f: nat, d: Detection): (r: map<int, TrackRecord>)
    ensures r.Keys == reg.Keys + {d.trackId}
    ensures forall k :: k in reg ==> r[k] == reg[k]
    ensures d.trackId !in reg ==> r[d.trackId] == Sighting(f, d)
  {
    if d.trackId in reg then reg else reg[d.trackId := Sighting(f, d)]
  }

  /** The registry after observing a frame's detections in order. */
  function RegisterAll(reg: map<int, TrackRecord>, f: nat, dets: seq<Detection>): (r: map<int, TrackRecord>)
    ensures r.Keys == reg.Keys + IdsOf(dets)
    ensures forall k :: k in reg ==> r[k] == reg[k]
    ensures forall k :: k in r && k !in reg ==> r[k].firstSeenFrame == f
    decreases |dets|
  {
    if dets == [] then reg
    else
      var p := dets[..|dets| - 1];
      assert dets == p + [dets[|dets| - 1]];
      assert IdsOf(dets) == IdsOf(p) + {dets[|dets| - 1].trackId};
      Observe(RegisterAll(reg, f, p), f, dets[|dets| - 1])
  }

  /** Observing one more detection is one more insert-if-absent. */
  lemma RegisterAllSnoc(reg: map<int, TrackRecord>, f: nat, dets: seq<Detection>, d: Detection)
    ensures RegisterAll(reg, f, dets + [d]) == Observe(RegisterAll(reg, f, dets), f, d)
  {
    assert (dets + [d])[..|dets|] == dets;
  }

  /** The position of the first detection carrying track id `k`. */
  function FirstIndex(dets: seq<Detection>, k: int): (j: nat)
    requires k in IdsOf(dets)
    ensures j < |dets| && dets[j].trackId == k
    ensures forall i :: 0 <= i < j ==> dets[i].trackId != k
  {
    if dets[0].trackId == k then 0
    else
      assert exists d :: d in dets[1..] && d.trackId == k by {
        var d :| d in dets && d.trackId == k;
        assert d != dets[0];
      }
      1 + FirstIndex(dets[1..], k)
  }

  lemma FirstIndexUnique(dets: seq<Detection>, k: int, j: nat)
    requires j < |dets| && dets[j].trackId == k
    requires forall i :: 0 <= i < j ==> dets[i].trackId != k
    ensures k in IdsOf(dets) && FirstIndex(dets, k) == j
  {
    assert dets[j] in dets;
  }

  /** Within one frame the first detection of a new track id wins. */
  lemma {:induction false} RegisterAllFirstWins(reg: map<int, TrackRecord>, f: nat, dets: seq<Detection>, k: int)
    requires k !in reg && k in IdsOf(dets)
    ensures RegisterAll(reg, f, dets)[k] == Sighting(f, dets[FirstIndex(dets, k)])
    decreases |dets|
  {
    var n := |dets|;
    var p := dets[..n - 1];
    var d := dets[n - 1];
    assert dets == p + [d];
    if k in IdsOf(p) {
      RegisterAllFirstWins(reg, f, p, k);
      var j := FirstIndex(p, k);
      FirstIndexUnique(dets, k, j);
    } else {
      assert k == d.trackId;
      forall i | 0 <= i < n - 1 ensures dets[i].trackId != k {
        assert p[i] in p;
      }
      FirstIndexUnique(dets, k, n - 1);
    }
  }

  // ------------------------------------------------------------------- fold

  /** Every track id seen in any of the frames. */
  function IdsSeen(frames: seq<TrackerOutput>): set<int>
    decreases |frames|
  {
    if frames == [] then {}
    else IdsSeen(frames[..|frames| - 1]) + IdsOf(Dets(frames[|frames| - 1]))
  }

  /** A track id has been seen exactly when some frame contains it. */
  lemma {:induction false} IdsSeenIff(frames: seq<TrackerOutput>, k: int)
    ensures k in IdsSeen(frames) <==> exists f :: 0 <= f < |frames| && k in IdsOf(Dets(frames[f]))
    decreases |frames|
  {
    if frames != [] {
      var p := frames[..|frames| - 1];
      IdsSeenIff(p, k);
      if k in IdsSeen(p) {
        var f :| 0 <= f < |p| && k in IdsOf(Dets(p[f]));
        assert frames[f] == p[f];
      }
      if exists f :: 0 <= f < |frames| && k in IdsOf(Dets(frames[f])) {
        var f :| 0 <= f < |frames| && k in IdsOf(Dets(frames[f]));
        if f < |p| {
          assert frames[f] == p[f];
        }
      }
    }
  }

  /** One iteration of the frame loop: summarise, register, advance. */
  function Step(a: Aggregate, out: TrackerOutput): Aggregate
  {
    Aggregate(a.frameIdx + 1,
              a.series + [Summarize(a.frameIdx, out)],
              RegisterAll(a.registry, a.frameIdx, Dets(out)))
  }

  /** The state before any frame is read. */
  const Initial: Aggregate := Aggregate(0, [], map[])

  /** The state after the loop has consumed `frames`, one step per frame. */
  function Fold(frames: seq<TrackerOutput>): (a: Aggregate)
    ensures a.frameIdx == |frames| && |a.series| == |frames|
    decreases |frames|
  {
    if frames == [] then Initial
    else
      var p := frames[..|frames| - 1];
      var out := frames[|frames| - 1];
      Step(Fold(p), out)
  }

  /** The registry holds exactly the track ids seen so far, each first seen
      in a frame already processed. */
  lemma {:induction false} FoldRegistry(frames: seq<TrackerOutput>)
    ensures Fold(frames).registry.Keys == IdsSeen(frames)
    ensures forall k :: k in Fold(frames).registry ==> Fold(frames).registry[k].firstSeenFrame < |frames|
    decreases |frames|
  {
    if frames != [] {
      FoldRegistry(frames[..|frames| - 1]);
    }
  }

  /** Consuming one more frame is one more step. */
  lemma FoldSnoc(frames: seq<TrackerOutput>, out: TrackerOutput)
    ensures Fold(frames + [out]) == Step(Fold(frames), out)
  {
    assert (frames + [out])[..|frames|] == frames;
  }

  /** The k-th record of the time series summarises frame k. */
  lemma {:induction false} SeriesRecord(frames: seq<TrackerOutput>, k: nat)
    requires k < |frames|
    ensures Fold(frames).series[k] == Summarize(k, frames[k])
    decreases |frames|
  {
    var p := frames[..|frames| - 1];
    var prior := Fold(p);
    assert Fold(frames).series == prior.series + [Summarize(|p|, frames[|p|])];
    if k < |p| {
      SeriesRecord(p, k);
      assert frames[k] == p[k];
    }
  }

  /** Append-only: processing more frames extends the time series without
      touching earlier records and never changes a registry entry. */
  lemma {:induction false} FoldExtends(frames: seq<TrackerOutput>, m: nat)
    requires m <= |frames|
    ensures Fold(frames[..m]).series == Fold(frames).series[..m]
    ensures forall k :: k in Fold(frames[..m]).registry ==>
              k in Fold(frames).registry && Fold(frames).registry[k] == Fold(frames[..m]).registry[k]
    decreases |frames| - m
  {
    if m < |frames| {
      var p := frames[..|frames| - 1];
      assert p[..m] == frames[..m];
      FoldExtends(p, m);
    } else {
      assert frames[..m] == frames;
    }
  }

  /** `r` is the first sighting of track id k in `frames`: its frame is the
      first containing k and, within that frame, the first detection of k
      supplies the confidence and the box. */
  ghost predicate IsFirstSighting(frames: seq<TrackerOutput>, k: int, r: TrackRecord)
  {
    && r.firstSeenFrame < |frames|
    && k in IdsOf(Dets(frames[r.firstSeenFrame]))
    && (forall f :: 0 <= f < r.firstSeenFrame ==> k !in IdsOf(Dets(frames[f])))
    && r == Sighting(r.firstSeenFrame, Dets(frames[r.firstSeenFrame])[FirstIndex(Dets(frames[r.firstSeenFrame]), k)])
  }

  lemma FirstSightingExtends(p: seq<TrackerOutput>, out: TrackerOutput, k: int, r: TrackRecord)
    requires IsFirstSighting(p, k, r)
    ensures IsFirstSighting(p + [out], k, r)
  {
    var fs := p + [out];
    assert fs[r.firstSeenFrame] == p[r.firstSeenFrame];
    forall f | 0 <= f < r.firstSeenFrame ensures k !in IdsOf(Dets(fs[f])) {
      assert fs[f] == p[f];
    }
  }

  lemma FirstSightingNew(p: seq<TrackerOutput>, out: TrackerOutput, k: int)
    requires k !in IdsSeen(p) && k in IdsOf(Dets(out))
    ensures IsFirstSighting(p + [out], k, Sighting(|p|, Dets(out)[FirstIndex(Dets(out), k)]))
  {
    var fs := p + [out];
    assert fs[|p|] == out;
    IdsSeenIff(p, k);
    forall f | 0 <= f < |p| ensures k !in IdsOf(Dets(fs[f])) {
      assert fs[f] == p[f];
    }
  }

  /** The registry entry of every track id is its first sighting. */
  lemma {:induction false} FirstSighting(frames: seq<TrackerOutput>, k: int)
    requires k in Fold(frames).registry
    ensures IsFirstSighting(frames, k, Fold(frames).registry[k])
    decreases |frames|
  {
    var n := |frames|;
    var p := frames[..n - 1];
    var out := frames[n - 1];
    var prev := Fold(p);
    FoldRegistry(p);
    assert frames == p + [out];
    var reg := RegisterAll(prev.registry, n - 1, Dets(out));
    assert Fold(frames).registry == reg;
    if k in prev.registry {
      FirstSighting(p, k);
      FirstSightingExtends(p, out, k, prev.registry[k]);
      assert reg[k] == prev.registry[k];
    } else {
      RegisterAllFirstWins(prev.registry, n - 1, Dets(out), k);
      FirstSightingNew(p, out, k);
    }
  }
}

=== FILE: analyzer.dfy ===
/**
 * The video analysis loop: a session object whose fields the loop updates in
 * place, the driver that reads frames until the stream ends, and the record
 * it returns.
 */
module Analyzer {
  import opened Detections
  import opened Aggregation

  /** The fixed note on the units of the weight proxy. */
  const WeightSummary: string := "Values are pixel area (Width * Height). Calibration required for grams."

  /** The record returned after the last frame. */
  datatype AnalysisResult = AnalysisResult(
    totalFramesProcessed: nat,
    countsTimeseries: seq<FrameStat>,
    uniqueBirdsTracked: nat,
    tracksSample: map<int, TrackRecord>,
    weightSummary: string)

  /** Why a run produced no result: the video could not be opened, or a
      frame was read while the reported frame rate is 0, so computing its
      timestamp divides by zero. */
  datatype Error = CouldNotOpenVideo | ZeroFrameRate

  datatype Outcome = Done(result: AnalysisResult) | Failed(error: Error)

  /** A video as the loop sees it: whether it could be opened, the frame
      rate its container reports, and the tracker's answer for each frame it
      yields, in stream order. */
  datatype Video = Video(isOpen: bool, fps: real, frames: seq<TrackerOutput>)

  /** The result record built from the loop's final state. */
  function Assemble(a: Aggregate): AnalysisResult
  {
    AnalysisResult(a.frameIdx, a.series, |a.registry|, a.registry, WeightSummary)
  }

  /** The result of analysing `frames`: one record per frame, and one
      registry entry per distinct track id, each first seen before the end. */
  function Analyze(frames: seq<TrackerOutput>): (r: AnalysisResult)
    ensures r.totalFramesProcessed == |frames| == |r.countsTimeseries|
    ensures r.tracksSample.Keys == IdsSeen(frames)
    ensures r.uniqueBirdsTracked == |IdsSeen(frames)|
    ensures forall k :: k in r.tracksSample ==> r.tracksSample[k].firstSeenFrame < r.totalFramesProcessed
    ensures r.weightSummary == WeightSummary
  {
    FoldRegistry(frames);
    Assemble(Fold(frames))
  }

  /** The loop over one frame's detections: collects each detection's proxy
      in order and records the first sighting of every new track id. */
  method ScanDetections(reg: map<int, TrackRecord>, f: nat, dets: seq<Detection>)
    returns (frameWeights: seq<int>, samples: map<int, TrackRecord>)
    ensures frameWeights == Proxies(dets)
    ensures samples == RegisterAll(reg, f, dets)
  {
    frameWeights := [];
    samples := reg;
    for i := 0 to |dets|
      invariant frameWeights == Proxies(dets[..i])
      invariant samples == RegisterAll(reg, f, dets[..i])
    {
      var d := dets[i];
      assert dets[..i + 1] == dets[..i] + [d];
      ProxiesSnoc(dets[..i], d);
      RegisterAllSnoc(reg, f, dets[..i], d);
      frameWeights := frameWeights + [WeightProxy(d.box)];
      if d.trackId !in samples {
        samples := samples[d.trackId := TrackRecord(f, d.conf, d.box)];
      }
    }
    assert dets[..|dets|] == dets;
  }

  /** The mutable state of one run of the frame loop. */
  class Session {
    var frameIdx: nat
    var timeSeriesCounts: seq<FrameStat>
    var trackSamples: map<int, TrackRecord>

    /** One record per frame read, and every registered track first seen in
        a frame already read. */
    ghost predicate Valid()
      reads this
    {
      && |timeSeriesCounts| == frameIdx
      && forall k :: k in trackSamples ==> trackSamples[k].firstSeenFrame < frameIdx
    }

    /** The accumulated state as a value. */
    function State(): Aggregate
      reads this
    {
      Aggregate(frameIdx, timeSeriesCounts, trackSamples)
    }

    constructor ()
      ensures Valid() && State() == Initial
    {
      frameIdx := 0;
      timeSeriesCounts := [];
      trackSamples := map[];
    }

    /** Handles one frame: computes each detection's proxy, records first
        sightings, appends the frame's summary and advances the index. */
    method ProcessFrame(out: TrackerOutput)
      requires Valid()
      modifies this
      ensures Valid()
      ensures frameIdx == old(frameIdx) + 1
      ensures timeSeriesCounts == old(timeSeriesCounts) + [Summarize(old(frameIdx), out)]
      ensures trackSamples == RegisterAll(old(trackSamples), old(frameIdx), Dets(out))
    {
      var currentCount := 0;
      var frameWeights: seq<int> := [];
      if out.Tracked? {
        currentCount := |out.dets|;
        frameWeights, trackSamples := ScanDetections(trackSamples, frameIdx, out.dets);
      }
      var avg := if |frameWeights| > 0 then Mean(frameWeights) else 0.0;
      assert FrameStat(frameIdx, currentCount, avg) == Summarize(frameIdx, out);
      timeSeriesCounts := timeSeriesCounts + [FrameStat(frameIdx, currentCount, avg)];
      frameIdx := frameIdx + 1;
    }
  }

  /** Runs the frame loop over a whole video. The sampling rate is accepted
      and has no effect: every frame is processed and recorded. A reported
      frame rate of 0 fails at the first frame's timestamp; a video without
      frames never computes one. */
  method ProcessVideo(video: Video, fpsSample: int) returns (res: Outcome)
    ensures !video.isOpen ==> res == Failed(CouldNotOpenVideo)
    ensures video.isOpen && video.fps == 0.0 && |video.frames| > 0 ==> res == Failed(ZeroFrameRate)
    ensures video.isOpen && (video.fps != 0.0 || |video.frames| == 0) ==> res == Done(Analyze(video.frames))
  {
    if !video.isOpen {
      return Failed(CouldNotOpenVideo);
    }
    var session := new Session();
    while true
      invariant session.frameIdx <= |video.frames|
      invariant session.Valid() && session.State() == Fold(video.frames[..session.frameIdx])
      invariant video.fps == 0.0 ==> session.frameIdx == 0
      decreases |video.frames| - session.frameIdx
    {
      // reading past the last frame signals the end of the stream
      var ret := session.frameIdx < |video.frames|;
      if !ret {
        break;
      }
      var frame := video.frames[session.frameIdx];
      // the frame's timestamp divides its index by the frame rate
      if video.fps == 0.0 {
        return Failed(ZeroFrameRate);
      }
      assert video.frames[..session.frameIdx + 1] == video.frames[..session.frameIdx] + [frame];
      FoldSnoc(video.frames[..session.frameIdx], frame);
      session.ProcessFrame(frame);
    }
    assert video.frames[..session.frameIdx] == video.frames;
    res := Done(Assemble(session.State()));
  }

  /** A three-frame run at one frame per second: an empty frame, then bird 1
      with a 10x10 box, then bird 1 again with a 12x10 box. The registry keeps
      the first sighting. */
  lemma ThreeFrameScenario()
    ensures var frames := [
        Untracked,
        Tracked([Detection(Box(0, 0, 10, 10), 1, 0.9)]),
        Tracked([Detection(Box(0, 0, 12, 10), 1, 0.95)])];
      Analyze(frames) == AnalysisResult(
        3,
        [FrameStat(0, 0, 0.0), FrameStat(1, 1, 100.0), FrameStat(2, 1, 120.0)],
        1,
        map[1 := TrackRecord(1, 0.9, Box(0, 0, 10, 10))],
        WeightSummary)
  {
    var d1 := Detection(Box(0, 0, 10, 10), 1, 0.9);
    var d2 := Detection(Box(0, 0, 12, 10), 1, 0.95);
    var frames := [Untracked, Tracked([d1]), Tracked([d2])];
    assert frames[..2] == [Untracked, Tracked([d1])];
    assert frames[..2][..1] == [Untracked];
    assert [Untracked][..0] == [];
    assert Proxies([d1]) == [100];
    assert Proxies([d2]) == [120];
    assert Sum([100]) == 100 && Sum([120]) == 120 by {
      assert [100][1..] == [] && [120][1..] == [];
    }
    var a1 := Fold([Untracked]);
    assert a1 == Aggregate(1, [FrameStat(0, 0, 0.0)], map[]);
    var a2 := Fold(frames[..2]);
    assert [d1][..0] == [];
    assert RegisterAll(map[], 1, [d1]) == map[1 := TrackRecord(1, 0.9, Box(0, 0, 10, 10))];
    assert a2 == Aggregate(2, [FrameStat(0, 0, 0.0), FrameStat(1, 1, 100.0)], map[1 := TrackRecord(1, 0.9, Box(0, 0, 10, 10))]);
    assert [d2][..0] == [];
    assert RegisterAll(a2.registry, 2, [d2]) == a2.registry;
  }
}

=== FILE: detections.dfy ===
/**
 * What the tracker hands the frame loop: integer boxes, track ids and
 * confidences, plus the weight proxy computed from a box.
 */
module Detections {

  /** An axis-aligned box with corner (x1, y1) and opposite corner (x2, y2),
      already truncated to integers. Nothing forces x1 <= x2 or y1 <= y2. */
  datatype Box = Box(x1: int, y1: int, x2: int, y2: int)
  {
    function Width(): int { x2 - x1 }
    function Height(): int { y2 - y1 }

    /** The box is not inverted along either axis. */
    predicate WellFormed() { x1 <= x2 && y1 <= y2 }
  }

  /** One tracked object in one frame. */
  datatype Detection = Detection(box: Box, trackId: int, conf: real)

  /** The tracker's answer for one frame: `Untracked` when it returned no boxes
      or no track ids, otherwise the detections in the tracker's order. */
  datatype TrackerOutput = Untracked | Tracked(dets: seq<Detection>)

  /** The detections the frame loop iterates over. */
  function Dets(out: TrackerOutput): seq<Detection>
  {
    match out
    case Untracked => []
    case Tracked(ds) => ds
  }

  /** The track ids occurring in a list of detections. */
  function IdsOf(dets: seq<Detection>): set<int>
  {
    set d | d in dets :: d.trackId
  }

  /** The weight proxy of a box: its signed pixel area. The value is not
      clamped, so a box inverted along exactly one axis and of non-zero
      extent along the other gives a negative proxy. */
  function WeightProxy(b: Box): (r: int)
    ensures b.WellFormed() ==> r >= 0
    ensures r == 0 <==> b.Width() == 0 || b.Height() == 0
    ensures r < 0 <==> (b.Width() < 0 && b.Height() > 0) || (b.Width() > 0 && b.Height() < 0)
  {
    b.Width() * b.Height()
  }

  /** Worked values: an ordinary box, a box flat in one dimension, and a box
      inverted along x, whose proxy is negative because nothing clamps it. */
  lemma WeightProxyExamples()
    ensures WeightProxy(Box(10, 10, 50, 60)) == 2000
    ensures WeightProxy(Box(20, 10, 10, 10)) == 0
    ensures WeightProxy(Box(20, 10, 10, 20)) == -100
  {
  }
}
